=== FILE: README.md ===
# A verified model of the normphp service container

`src/Container.php` is a small service container. Each container object holds two binding
tables. `baseBind` is a privileged table from alias to class name. `bind` is a user table from
alias to class name or closure. Beside them sits an instance cache, `instances`. A static
registry keyed by `CONTAINER_NAME` keeps one live container per container name; classes that
share a name share the entry.

`bind($name, $arguments)` does the work. It returns the instance cached under the requested
name if there is one. Otherwise it resolves the name through the aliases to a canonical id and
picks the class: base table first, then user table, then the name itself. It builds the object
through reflection and caches it under the canonical id. The cache test uses the requested name,
not the canonical id, so a request through an alias never hits the cache: it rebuilds the object
and overwrites the one cached under the canonical id.
`setInstances` registers instances and closures. `get` and `has` query the cache. `init` and
`__callStatic` create named containers lazily.

The model is written in Dafny as pure functions. Each operation takes the container, or the
registry, before the call and returns its result together with the state after the call.

| file | module | what it models |
|---|---|---|
| `results.dfy` | `Results` | `Option` and `Result` |
| `tables.dfy` | `Tables` | PHP arrays with string keys: lookup, assignment, `array_search`, `array_merge` |
| `classes.dfy` | `Classes` | values, constructor parameters and the class-descriptor table that stands in for reflection |
| `container.dfy` | `ServiceContainer` | one container: `get`, `has`, `setInstances`, `bind`, `newInstanceArgs`, `getMethodParams`, `__call`, `__construct` |
| `container_laws.dfy` | `ContainerLaws` | properties that span several calls |
| `registry.dfy` | `Registry` | `$containerInstance`, `new static`, `init`, `__callStatic` |
| `registry_laws.dfy` | `RegistryLaws` | properties of the registry |

Modelling choices:

- **Binding tables are ordered sequences of entries.** `array_search` returns the first
  matching key in insertion order, so the order matters. The type `Tables.Table` has the
  invariant that no key appears twice. The instance cache is never searched by value, so it
  is a plain `map`.
- **`isset` treats a stored `null` as absent.** `ServiceContainer.Cached` is the set of ids with
  a non-null cached value. `get`, `has`, the cache-hit test of `bind` and the occupancy tests of
  `setInstances` all use it.
- **Reflection is a `ClassTable`.** It maps a class name to a `ClassDesc`. The descriptor says
  whether the class may be built, gives its constructor parameters if it has a constructor,
  and gives its `bind` class constant if it has one. A parameter is
  `Param(hasDefault, default, ty)`, where `ty` is `NoType`, `Builtin(_)` or `Named(_)`. A built
  object is the value `Obj(className, args)`.
- **Recursion is bounded by fuel.** `bind` calls `newInstanceArgs`, which calls
  `getMethodParams`, which calls `bind` again. Each construction on a cache miss spends one unit
  of `fuel`. With no fuel left, the call returns `OutOfFuel`. Cache hits cost nothing.
- **A throw becomes an `Err`, and its side effects stay.** The container after a failed `bind`
  still holds the dependencies cached before the failure, as the PHP object would, and the error
  reported is the one the failing dependency raised, whatever its kind and however deep it is
  (`ContainerLaws.DependencyFails`, `ContainerLaws.FailedDependencyKeepsEarlierOnes`,
  `ContainerLaws.NestedFailureKeepsInnerDependencies`).
- **The constructor call checks its argument count.** PHP throws `ArgumentCountError` when a
  constructor receives fewer arguments than it requires: the parameters up to and including the
  last one without a default (`ServiceContainer.RequiredCount`). `newInstanceArgs` reports this
  as `TooFewArguments`, after refusing a class it cannot instantiate.

Where the model reads the code rather than copying it:

- **Alias lookup (src/Container.php:152, :155).** The code writes
  `$key = array_search(...) !== false`. Because `!==` binds tighter than `=`, `$key` gets a
  boolean. `ServiceContainer.Canonical` models the evident intent instead: a reverse lookup from
  value to key, first in the base table, then in the user table on the name reached so far.
- **`setInstances` (src/Container.php:90, :111, :117).** These lines use the unbound variables
  `$concrete` and `$abstract` and an unimported `Closure`. The model reads them as `$instances`,
  `$name` and the closure class. With that reading, one branch still has no `return`; see
  Findings.
- **Dependencies are cached, not passed.** Autowiring would pass a resolved class-typed
  dependency to the constructor. The code calls `bind` on the type and discards the result
  (src/Container.php:221), so the constructor receives a short list. The model follows the code:
  the dependency is built and cached, and then the constructor call fails with
  `TooFewArguments` whenever no default after the dependency fills the gap
  (`ContainerLaws.UninjectedDependencyIsTooFew`). `ContainerLaws.DependencyCachedNotInjected`
  shows this on a two-class example: `bind('a')` for `a(b $x)` caches `b` and then throws.
- **The cache test uses the requested name (src/Container.php:149, :160).** The model keeps it.
  `ContainerLaws.AliasRequestRebuilds` shows that a request for a class that the base table
  aliases rebuilds the service and replaces the cached object.

## Model

| member | source | states |
|---|---|---|
| `Tables.Put` | src/Container.php:94 | assigning a key makes it map to the new value, leaves every other key's value unchanged, and keeps keys unique |
| `Tables.PutKeepsOrder` | src/Container.php:102 | overwriting keeps every other entry in its position; a new key is appended at the end |
| `Tables.SearchFindsFirst` | src/Container.php:152 | `array_search` fails exactly when no entry holds the value, and otherwise returns the first such entry's key |
| `Tables.SearchThenLookup` | src/Container.php:155 | the key a reverse lookup finds maps back to the searched value |
| `Tables.LookupThenSearch` | src/Container.php:152-156 | when values are unique too, forward and reverse lookup are inverse: `k` maps to `v` iff the search for `v` returns `k` |
| `Tables.Merge` | src/Container.php:72 | `array_merge(a, b)` holds every key of either table, and `b`'s value wins on a clash. `a`'s keys keep their positions, and `b`'s new keys follow in `b`'s order |
| `Tables.PutAllOrder` | src/Container.php:72 | assigning every entry of `u` into `t` keeps each key of `t` in place and leaves entries whose key `u` lacks unchanged. The keys new to `t` are appended in `u`'s order |
| `ServiceContainer.Get` | src/Container.php:251-257 | succeeds exactly when a non-null instance is cached under the id and returns it; otherwise fails with `NotFound(id)`. It returns no new state, so a query changes nothing |
| `ServiceContainer.Has` | src/Container.php:267-273 | true exactly when a non-null instance is cached under the id; a name that is only bound does not count |
| `ServiceContainer.HasIffGetSucceeds` | src/Container.php:251-273 | `has` holds iff `get` succeeds; otherwise `get` reports `NotFound` |
| `ServiceContainer.RegisterAsWritten` | src/Container.php:83-123 | the code as written. A base key, or a name that is occupied while the flag is off, is refused with `false` and nothing changes. Otherwise a closure is written to the user table and anything else to the cache. The reply is `true`, except for a forced instance, where it is `null` |
| `ServiceContainer.Register` | src/Container.php:83-123 | accepted iff the name is not a base key and either `force` is set or the name is free. A closure is free if neither the user table nor the cache holds the name; an instance is free if the cache does not hold it. A refusal changes nothing. An accepted closure changes only its user-table entry; an accepted instance changes only its cache entry |
| `ServiceContainer.ForcedInstanceRepliesNull` | src/Container.php:109-111 | a forced instance registration stores the value, but the code as written answers `null` where the corrected model answers `true` |
| `ServiceContainer.RegisterAgreesWithCode` | src/Container.php:83-123 | apart from that one reply, the corrected registration has the same effect and the same reply as the code |
| `ServiceContainer.Bind` | src/Container.php:144-162 | a cache hit returns the cached object and changes nothing. A miss with no fuel fails. On a miss with fuel, and with nothing to resolve, a closure fails with `NotInstantiable`, an unknown class with `ClassNotFound`, a non-instantiable class with `NotInstantiable` and a constructor given too few arguments with `TooFewArguments`, each changing nothing; otherwise the object is built and cached under the canonical id. On any miss with fuel the result is `newInstanceArgs`' result: a success caches the object it built under the canonical id, and a failure keeps the container `newInstanceArgs` left, with the dependencies it cached. Binding tables never change, cached ids are never lost, and every cache entry added or replaced is an object of the class the tables choose for its id |
| `ServiceContainer.NewInstanceArgs` | src/Container.php:169-180 | a success is an object of an instantiable known class whose constructor received enough arguments, built from the assembled list, or from no arguments when there is no constructor. An unknown class fails with `ClassNotFound` and a closure with `NotInstantiable`. For a class with a constructor, the container afterwards is the one argument assembly left, and an assembly error is reported unchanged. After a successful assembly, a non-instantiable class fails with `NotInstantiable`, a list shorter than the required count with `TooFewArguments`, and otherwise the object is built from the `Assembled` list. With nothing to resolve, the same outcomes occur with no change to the container. Every cache entry added or replaced is an object of the class the tables choose for its id |
| `ServiceContainer.MethodParams` | src/Container.php:188-225 | a success returns exactly the reference list `Assembled`, and every class-typed parameter without an argument or default is left resolved in the cache. If no parameter needs resolving, the call succeeds and changes nothing. Cache entries are only added or replaced by objects of the class the tables choose for their ids |
| `ServiceContainer.RequiredCount` | src/Container.php:179 | the number of arguments a constructor call requires: every parameter from that count on has a default, and the parameter just before it has none |
| `ServiceContainer.Call` | src/Container.php:130-133 | an undeclared instance method is exactly `bind` of that name with the call's arguments, for hits and misses alike |
| `ServiceContainer.Construct` | src/Container.php:65-76 | a new container starts with an empty cache and its class's tables. A `son` with no `bind` constant fails. Otherwise a non-empty `bind` constant of the `son` becomes `array_merge(son::bind, bind)`: the class's own entries win on a clash, and the `son`'s keys come first |
| `ContainerLaws.CanonicalIsBoundKey` | src/Container.php:152-157 | the canonical id is the requested name, a base key aliasing it, or a user-table key |
| `ContainerLaws.UserAliasApplies` | src/Container.php:155-158 | when the base table aliases nothing to `name` and the user table binds `k` to the class `name` (its values unique), the canonical id is `k` |
| `ContainerLaws.BaseThenUserAlias` | src/Container.php:152-158 | the two alias steps chain: a base alias from `name` to `m` followed by a user alias from the class `m` to `k` gives `k` |
| `ContainerLaws.UnaliasedNameIsCanonical` | src/Container.php:152-157 | a name no entry holds as a value is its own canonical id |
| `ContainerLaws.BaseAliasComesFirst` | src/Container.php:152-157 | the base table's alias is applied before the user table's, whatever the user table says about the original name |
| `ContainerLaws.BindPrecedence` | src/Container.php:158 | on a miss, the class built is the base table's class for the canonical id, else the user table's, else the id itself |
| `ContainerLaws.BindSucceedsWhenBuildable` | src/Container.php:144-180 | when the chosen class is known and instantiable, its constructor gets enough arguments, and recursively every dependency its constructor must resolve is buildable within `n` levels, `bind` with at least `n` fuel succeeds in the model |
| `ContainerLaws.MethodParamsSucceedWhenBuildable` | src/Container.php:195-224 | when every dependency left to resolve is buildable, the argument list is assembled without error |
| `ContainerLaws.DependencyStep` | src/Container.php:209-221 | a dependency resolved at position `i` hands assembly on to position `i + 1` in the container its resolution left |
| `ContainerLaws.DependencyFails` | src/Container.php:209-221 | a dependency whose resolution fails at position `i` ends the assembly with exactly its error, whatever the kind, and the container its failed resolution left |
| `ContainerLaws.BaseKeyNeverShadowed` | src/Container.php:86-88 | no registration can change the class built for a base key, and registering a base key is refused |
| `ContainerLaws.BindHitIgnoresArguments` | src/Container.php:149-151 | a cache hit ignores the arguments and the fuel, returns what `get` returns, and changes nothing |
| `ContainerLaws.BindThenGet` | src/Container.php:149-160 | after a successful miss, `has` and `get` find the new object under the canonical id |
| `ContainerLaws.BindIsMemoised` | src/Container.php:149-160 | binding a name that is its own canonical id a second time returns the same object and changes nothing |
| `ContainerLaws.SelfDependencyRunsOutOfFuel` | src/Container.php:221 | a class whose constructor requires itself fails with `OutOfFuel` for every fuel, where the code recurses forever |
| `ContainerLaws.AssembledBounded` | src/Container.php:195-207 | the assembled argument list is never longer than the parameter list |
| `ContainerLaws.ExplicitArgumentsVerbatim` | src/Container.php:199-202 | when there is an explicit argument for every parameter, they are passed as given and the extra ones are dropped |
| `ContainerLaws.SuppliedParametersInPlace` | src/Container.php:195-208 | when every parameter has an argument or a default, the list has one value per parameter in order: the explicit argument if present, else the default |
| `ContainerLaws.DependencyCachedNotInjected` | src/Container.php:169-221 | building `a(b $x)` with `b` a class without constructor caches `b`, then calls `a`'s constructor with no arguments and fails with `TooFewArguments`, keeping `b` cached |
| `ContainerLaws.AssembledSkips` | src/Container.php:195-221 | a parameter with no argument and no default contributes nothing, so the list from any earlier position is shorter than the parameters left |
| `ContainerLaws.UninjectedDependencyIsTooFew` | src/Container.php:169-221 | a constructor with a class-typed parameter that needs resolving and no default after it never receives enough arguments, because the resolved dependency is not passed |
| `ContainerLaws.NestedFailureKeepsInnerDependencies` | src/Container.php:159-221 | for `a(d $x)` and `d(e $y, f $z)` with `f` no class, `bind(a)` fails with `f`'s `ClassNotFound` and keeps `e`, which `d`'s resolution cached before the throw |
| `ContainerLaws.FailedDependencyKeepsEarlierOnes` | src/Container.php:159-221 | for `a(b $x, d $y)` with `d` no class, `bind(a)` fails with `d`'s `ClassNotFound`, and `b`, resolved before the throw, stays cached |
| `ContainerLaws.AliasRequestRebuilds` | src/Container.php:149-160 | a request for a class that the base table aliases as `svc` misses the cache although `svc` is cached: it rebuilds the object and replaces the cached one, and with no fuel it fails |
| `ContainerLaws.RegisterTwiceRefused` | src/Container.php:92-119 | for a non-null first value, with a closure followed only by a closure, a second registration without the flag is refused and changes nothing, and a first instance is still what `get` returns. The other cases are those of the next two rows: after a `null` the name stays free except for a closure whose name the user table already holds, and after a closure an instance is accepted |
| `ContainerLaws.NullRegistrationLeavesNameFree` | src/Container.php:113-118 | a registered `null` is not seen by `isset`: `has` is false, and the name stays free for a second registration without the flag |
| `ContainerLaws.InstanceAfterClosureAccepted` | src/Container.php:113-118 | after a closure is registered under a name, an instance under the same name is still accepted without the flag, because the instance branch checks only the cache |
| `ContainerLaws.ForcedRegistrationWins` | src/Container.php:109-111 | a forced registration of a non-null instance under a non-base name is accepted, and `bind` then returns the new value |
| `ContainerLaws.ForcedClosureKeepsCachedObject` | src/Container.php:92-95 | a forced closure over a cached name is accepted but rewrites only the user table, so `bind` still returns the old cached object |
| `ContainerLaws.RegisteredClosureIsNotBuilt` | src/Container.php:90-104 | a registered closure is never called: resolving its name fails because the `Closure` class cannot be built |
| `Registry.New` | src/Container.php:75 | the result is exactly what `__construct` yields. A success is stored under its class's name with an empty cache; a failure leaves the registry as it was |
| `Registry.Init` | src/Container.php:285-292 | returns the live container unless there is none or `forceNew` is set. In that case the result is exactly what `__construct` yields for `son`, and on success it is stored. Other names are untouched |
| `Registry.CallStatic` | src/Container.php:232-242 | an existing container is reused and its `bind` result is returned. With no live container, a first argument that cannot be the `son` string fails; otherwise `__construct` runs on the `son`, its error is returned with the registry unchanged, and on success the new container resolves the name and is stored with what `bind` left in it. Other names are untouched |
| `Registry.CallLive` | src/Container.php:130-133 | a call on the live container of a name returns what `__call` returns and stores the container `__call` left, whether the call succeeded or failed, leaving other names untouched |
| `RegistryLaws.CallStaticCreatesLazily` | src/Container.php:237-241 | with no live container, one is built from the call's arguments and the name is resolved in it |
| `RegistryLaws.OtherContainersUnaffected` | src/Container.php:237-241 | a static call leaves every other named container, and each `get` on it, as it was |
| `RegistryLaws.InitReturnsLiveContainer` | src/Container.php:285-292 | a second `init` without `forceNew` returns the container the first one left, whatever `son` it is given |
| `RegistryLaws.StaticCallIsMemoised` | src/Container.php:232-242 | two static calls for a name that is its own canonical id return the same object, and the second changes nothing |
| `RegistryLaws.InstanceCallSeenByStaticCall` | src/Container.php:130-133 | an object cached through a call on the live container is what a later static call for the same self-canonical name returns, with nothing changed |

## Findings

| source | as written | input that shows it | evidently intended | confidence | as-written member | corrected member |
|---|---|---|---|---|---|---|
| src/Container.php:109-111 | the forced branch for an instance stores the value and then falls off the end of the function, so the call returns `null` | `setInstances('x', $obj, true)` where `x` is not a base key | `true`, as every other successful branch returns | medium; not executed | `ServiceContainer.RegisterAsWritten` (shown by `ServiceContainer.ForcedInstanceRepliesNull`) | `ServiceContainer.Register` |

## Left out

- PHP reflection is replaced by the explicit `ClassTable`. Class names are matched case-sensitively, although PHP matches them without regard to case.
- Constructor bodies are never run. A built object is `Obj(className, args)`. The argument count is checked (`TooFewArguments`), but a `TypeError` from a value of the wrong type is not modelled. This includes a default shifted into a class-typed position, because the resolved dependency is not passed. Variadic parameters are not modelled.
- ContainerLaws.BindSucceedsWhenBuildable: holds in the model, where only the argument count is checked. For a class with a dependency to resolve, `Buildable` needs defaults after that parameter to make up the count. PHP then hands such a default to the class-typed parameter and throws `TypeError`, so the dependency case describes no successful build of the program. The case with no dependency to resolve is exact.
- ContainerLaws.MethodParamsSucceedWhenBuildable: the same caveat. A successful assembly is a successful build only when its list suits the parameter types.
- Closures and factories are never invoked, and neither does the code invoke them.
- `array_search` compares with `==`. The model compares values exactly, so PHP's numeric-string comparison (`"10" == "1e1"`) is not modelled. Integer-like string keys, which PHP turns into integer keys and which `array_merge` renumbers, are not modelled either.
- The literal behaviour of src/Container.php:152 and :155 is not modelled: a boolean `$key`, then PHP's key coercion of `true`. The intended reverse lookup is modelled instead.
- Undefined-variable notices and the always-false `instanceof` test in `setInstances` are not modelled; the intended reading is.
- `$arguments` is a positional list. An associative array passed straight to `bind` is not modelled.
- `ServiceContainer.Bind`: the code has no cycle guard and recurses until the stack runs out. The model's fuel bounds the nesting depth of constructions, so with too little fuel an acyclic dependency chain also fails, with `OutOfFuel`.
- The singleton promise for aliased names. The comment at src/Container.php:146-147 says `bind` never replaces a service object, but the hit test at :149 looks at the requested name and the store at :160 writes the canonical id. The model keeps the code, so `ContainerLaws.BindIsMemoised` is stated only for names that are their own canonical id, and `ContainerLaws.AliasRequestRebuilds` shows the rebuild.
- Object identity: PHP objects are references, and two separate builds give two distinct objects. `Obj` values with the same class and arguments compare equal. Statements that `bind` returns "the same object" are about the cached value.
- RegisterTwiceRefused: proved only when the first value is not `null` and a closure is followed by a closure. In the other cases the code accepts the second call. `NullRegistrationLeavesNameFree` and `InstanceAfterClosureAccepted` state those cases.
- ForcedRegistrationWins: proved for non-null instances only. A forced `null` is invisible to `isset`. A forced closure leaves the cache alone, so `bind` keeps returning a cached object, as `ForcedClosureKeepsCachedObject` states.
- Containers are values, not objects. The container `Init` returns, and the state after `Call`, are copies that the caller must store back. `Registry.CallLive` does this for the live container of a name. Aliasing between a PHP variable holding the container and the registry entry is not modelled otherwise.
- Values have no arrays, so an array passed as an argument or default is not modelled.
- Parameter types have no union or intersection types. For those `getType()` returns a type without `isBuiltin`, and the code at src/Container.php:214 fails there.
- A subclass constructor that overrides `__construct`, and `__toString` conversion of an object passed as the `son` argument, are not modelled.
- The unreachable `throw` after the `return` in `bind` (src/Container.php:161) has no counterpart.
- The unused properties `closure` and `invokeCallback`, the PSR `ContainerInterface` and exception interfaces, and the collaborators named in the file header (router, request, authority, helpers) are not part of this model.

=== FILE: classes.dfy ===
/**
  The world the container builds objects in. PHP reflection is replaced by an
  explicit table from class name to a class descriptor; a constructed object is
  the abstract value `Obj(className, args)`.
*/
module Classes {
  import opened Results
  import opened Tables

  /** A PHP value as far as the container handles it. */
  datatype Value =
    | Null
    | Scalar(text: string)                        // strings, ints, bools: only their string form matters here
    | Closure(id: nat)                            // a `Closure` object, told apart by identity
    | Obj(className: string, args: seq<Value>)    // an object built from a class and its constructor arguments

  /** The declared type of a constructor parameter. */
  datatype ParamType =
    | NoType                 // `hasType()` is false
    | Builtin(name: string)  // `int`, `string`, `array`, ...: `isBuiltin()` is true
    | Named(name: string)    // a class or interface name

  /** A constructor parameter: whether it has a default, that default, and its type. */
  datatype Param = Param(hasDefault: bool, default: Value, ty: ParamType)

  /** A registration in a user binding table: a class name, or a closure stored by `setInstances`. */
  datatype Binding = ClassName(name: string) | Factory(closure: nat)

  /**
    What reflection would report about a class: whether `newInstanceArgs` may build it
    (false for interfaces, abstract classes and non-public constructors), its constructor
    parameters if it has a constructor, and its class constant `bind` if it declares one.
  */
  datatype ClassDesc = ClassDesc(instantiable: bool, ctor: Option<seq<Param>>, bindConstant: Option<Table<Binding>>)

  type ClassTable = map<string, ClassDesc>
}

=== FILE: container.dfy ===
/**
  One container object of `src/Container.php`: its two binding tables, its instance
  cache, and the operations on them. Every operation is a pure function from the
  container before the call to the container after it.
*/
module ServiceContainer {
  import opened Results
  import opened Tables
  import opened Classes

  /** Why an operation throws. */
  datatype Error =
    | NotFound(id: string)              // `get` on an id with no cached instance
    | ClassNotFound(name: string)       // `new ReflectionClass` on a name that is not a class
    | NotInstantiable(name: string)     // `newInstanceArgs` on an interface, abstract class or Closure
    | TooFewArguments(name: string)     // the constructor call gets fewer arguments than it requires: `ArgumentCountError`
    | MissingBindConstant(son: string)  // `$son::bind` names no class constant
    | SonNotString                      // a static call whose first argument cannot be the `string $son`
    | OutOfFuel                         // dependency resolution nested deeper than the fuel allows

  /**
    The state of one container: the privileged `baseBind` table (alias => class name),
    the user `bind` table (alias => class name or closure) and the `instances` cache.
  */
  datatype Container = Container(baseBind: Table<string>, bind: Table<Binding>, instances: map<string, Value>)

  /** The result of an operation that may throw, with the container after it. */
  datatype Step<T> = Step(res: Result<T, Error>, state: Container)

  /** A container class: its `CONTAINER_NAME` and the initial `baseBind` and `bind` properties. */
  datatype ContainerClass = ContainerClass(name: string, baseBind: Table<string>, bind: Table<Binding>)

  /** The ids for which `isset($this->instances[$id])` holds; `isset` treats a stored `null` as absent. */
  function Cached(c: Container): set<string>
  {
    set k | k in c.instances && c.instances[k] != Null
  }

  /** Both binding tables are as they were. */
  predicate SameTables(c: Container, d: Container)
  {
    d.baseBind == c.baseBind && d.bind == c.bind
  }

  // ---------------------------------------------------------------- get / has

  /** `get($id)`: the cached instance, or a not-found error; never builds anything. */
  function Get(c: Container, id: string): (r: Result<Value, Error>)
    ensures r.Ok? <==> id in c.instances && c.instances[id] != Null
    ensures r.Ok? ==> r.value == c.instances[id]
    ensures r.Err? ==> r.error == NotFound(id)
  {
    if id in Cached(c) then Ok(c.instances[id]) else Err(NotFound(id))
  }

  /** `has($id)`: whether an instance is cached under `id`; a merely bound id is not. */
  function Has(c: Container, id: string): (b: bool)
    ensures b <==> id in c.instances && c.instances[id] != Null
  {
    id in Cached(c)
  }

  /** `has` holds exactly when `get` succeeds. */
  lemma HasIffGetSucceeds(c: Container, id: string)
    ensures Has(c, id) <==> Get(c, id).Ok?
    ensures !Has(c, id) ==> Get(c, id) == Err(NotFound(id))
  {
  }

  // ---------------------------------------------------------------- setInstances

  /** What `setInstances` answers as PHP would: `true`, `false`, or `null` where a branch has no `return`. */
  datatype RawReply = RawReply(reply: Option<bool>, state: Container)

  /**
    `setInstances` as written, reading its unbound `$concrete` as `$instances`,
    `$abstract` as `$name` and `Closure` as the closure class: the forced branch for an
    instance stores it but falls off the end of the function, so PHP answers `null`.
  */
  function RegisterAsWritten(c: Container, name: string, value: Value, force: bool): (r: RawReply)
    ensures Lookup(c.baseBind, name).Some? ==> r == RawReply(Some(false), c)
    ensures Lookup(c.baseBind, name).None? && !force && !Free(c, name, value) ==> r == RawReply(Some(false), c)
    ensures Lookup(c.baseBind, name).None? && (force || Free(c, name, value)) ==>
      && r.reply == (if force && !value.Closure? then None else Some(true))
      && r.state == (if value.Closure? then c.(bind := Put(c.bind, name, Factory(value.id)))
                     else c.(instances := c.instances[name := value]))
  {
    if Lookup(c.baseBind, name).Some? then RawReply(Some(false), c)
    else if value.Closure? then
      if force then RawReply(Some(true), c.(bind := Put(c.bind, name, Factory(value.id))))
      else if Lookup(c.bind, name).Some? || name in Cached(c) then RawReply(Some(false), c)
      else RawReply(Some(true), c.(bind := Put(c.bind, name, Factory(value.id))))
    else
      if force then RawReply(None, c.(instances := c.instances[name := value]))
      else if name in Cached(c) then RawReply(Some(false), c)
      else RawReply(Some(true), c.(instances := c.instances[name := value]))
  }

  /** The outcome of a registration: whether it was accepted, and the container after it. */
  datatype Registered = Registered(accepted: bool, state: Container)

  /**
    Whether `name` is still free for `value` when the overwrite flag is off: a closure
    needs the name unused in both the user table and the cache, an instance only in the cache.
  */
  predicate Free(c: Container, name: string, value: Value)
  {
    if value.Closure? then Lookup(c.bind, name).None? && name !in Cached(c)
    else name !in Cached(c)
  }

  /**
    `setInstances($name, $instances, $new)` with the intended reply: a closure goes into
    the user table, anything else into the instance cache; a base key is always refused,
    and an occupied name is refused unless `force` is set.
  */
  function Register(c: Container, name: string, value: Value, force: bool): (r: Registered)
    ensures r.accepted <==> Lookup(c.baseBind, name).None? && (force || Free(c, name, value))
    ensures !r.accepted ==> r.state == c
    ensures r.accepted && value.Closure? ==>
      && r.state.baseBind == c.baseBind
      && r.state.instances == c.instances
      && Lookup(r.state.bind, name) == Some(Factory(value.id))
      && forall j :: j != name ==> Lookup(r.state.bind, j) == Lookup(c.bind, j)
    ensures r.accepted && !value.Closure? ==> r.state == c.(instances := c.instances[name := value])
  {
    if Lookup(c.baseBind, name).Some? then Registered(false, c)
    else if value.Closure? then
      if force || Free(c, name, value) then Registered(true, c.(bind := Put(c.bind, name, Factory(value.id))))
      else Registered(false, c)
    else
      if force || Free(c, name, value) then Registered(true, c.(instances := c.instances[name := value]))
      else Registered(false, c)
  }

  /** The forced registration of an instance stores it, yet the code as written answers `null`, not `true`. */
  lemma ForcedInstanceRepliesNull(c: Container, name: string, value: Value)
    requires Lookup(c.baseBind, name).None?
    requires !value.Closure?
    ensures RegisterAsWritten(c, name, value, true).reply == None
    ensures Register(c, name, value, true) == Registered(true, RegisterAsWritten(c, name, value, true).state)
  {
  }

  /** Apart from that one reply, the corrected registration is the code as written. */
  lemma RegisterAgreesWithCode(c: Container, name: string, value: Value, force: bool)
    ensures Register(c, name, value, force).state == RegisterAsWritten(c, name, value, force).state
    ensures RegisterAsWritten(c, name, value, force).reply.Some? ==>
      RegisterAsWritten(c, name, value, force).reply.value == Register(c, name, value, force).accepted
  {
  }

  // ---------------------------------------------------------------- bind

  /**
    The alias step of `bind` (src/Container.php:152-157). The code writes
    `$key = array_search(...) !== false`, which stores the boolean comparison in `$key`
    because `!==` binds tighter than `=`. Modelled here is the evident intent: if an entry
    of the base table has `name` as its value, continue with that entry's key; then do
    the same in the user table with the name reached so far.
  */
  function Canonical(baseBind: Table<string>, bind: Table<Binding>, name: string): string
  {
    var afterBase := match Search(baseBind, name) case Some(key) => key case None => name;
    match Search(bind, ClassName(afterBase)) case Some(key) => key case None => afterBase
  }

  /** `$this->baseBind[$name] ?? ($this->bind[$name] ?? $name)`: what to build for a canonical id. */
  function Concrete(baseBind: Table<string>, bind: Table<Binding>, k: string): Binding
  {
    match Lookup(baseBind, k)
    case Some(cls) => ClassName(cls)
    case None => match Lookup(bind, k) case Some(b) => b case None => ClassName(k)
  }

  /** The arguments a constructor is called with: none without a constructor, else the assembled list. */
  function CtorArgs(ctor: Option<seq<Param>>, args: seq<Value>): seq<Value>
  {
    match ctor case None => [] case Some(ps) => Assembled(ps, args, 0)
  }

  /** `v` is the object `newInstanceArgs` builds for `target` from the explicit `args`. */
  predicate Builds(classes: ClassTable, target: Binding, args: seq<Value>, v: Value)
  {
    && target.ClassName?
    && target.name in classes
    && classes[target.name].instantiable
    && ArityMet(classes[target.name].ctor, args)
    && v == Obj(target.name, CtorArgs(classes[target.name].ctor, args))
  }

  /**
    Reference definition of the list `getMethodParams` returns for the parameters from
    position `i` on: an explicit argument at that position if there is one, else the
    default if there is one; any other parameter contributes nothing (a class-typed one
    is resolved for its side effect only, see `MethodParams`).
  */
  function Assembled(ps: seq<Param>, args: seq<Value>, i: nat): seq<Value>
    requires i <= |ps|
    decreases |ps| - i
  {
    if i == |ps| then []
    else if i < |args| then [args[i]] + Assembled(ps, args, i + 1)
    else if ps[i].hasDefault then [ps[i].default] + Assembled(ps, args, i + 1)
    else Assembled(ps, args, i + 1)
  }

  /**
    How many arguments a call of a function with parameters `ps` must receive: the
    parameters up to and including the last one without a default.
  */
  function RequiredCount(ps: seq<Param>): (n: nat)
    ensures n <= |ps|
    ensures forall j :: n <= j < |ps| ==> ps[j].hasDefault
    ensures n > 0 ==> !ps[n - 1].hasDefault
  {
    if |ps| == 0 then 0
    else if !ps[|ps| - 1].hasDefault then |ps|
    else RequiredCount(ps[..|ps| - 1])
  }

  /**
    The constructor, if any, receives at least as many arguments as it requires;
    otherwise PHP throws `ArgumentCountError` before the constructor body runs.
  */
  predicate ArityMet(ctor: Option<seq<Param>>, args: seq<Value>)
  {
    ctor.Some? ==> |Assembled(ctor.value, args, 0)| >= RequiredCount(ctor.value)
  }

  /** Parameter `j` gets neither an explicit argument nor a default and has a class type. */
  predicate NeedsBinding(ps: seq<Param>, args: seq<Value>, j: nat)
    requires j < |ps|
  {
    j >= |args| && !ps[j].hasDefault && ps[j].ty.Named?
  }

  /** No parameter from position `i` on needs a dependency resolved. */
  predicate NoDependencies(ps: seq<Param>, args: seq<Value>, i: nat)
  {
    forall j :: i <= j < |ps| ==> !NeedsBinding(ps, args, j)
  }

  /** After `bind(t)` succeeded, an instance is cached under `t` itself or under its canonical id. */
  predicate Resolved(c: Container, t: string)
  {
    t in Cached(c) || Canonical(c.baseBind, c.bind, t) in Cached(c)
  }

  /** The constructor, if any, has no parameter that needs a dependency resolved. */
  predicate SimpleCtor(ctor: Option<seq<Param>>, args: seq<Value>)
  {
    ctor.Some? ==> NoDependencies(ctor.value, args, 0)
  }

  /**
    Every cache entry that `d` adds or replaces relative to `c` is an object of the class
    that `c`'s tables choose for that entry's own id, and no entry is removed: a call that
    satisfies this writes the cache only where `bind` stores what it built.
  */
  predicate ChangesOnlyByBuilds(c: Container, d: Container)
  {
    && c.instances.Keys <= d.instances.Keys
    && forall j :: j in d.instances && (j !in c.instances || d.instances[j] != c.instances[j]) ==>
         d.instances[j].Obj? && Concrete(c.baseBind, c.bind, j) == ClassName(d.instances[j].className)
  }

  /** Extends a successful argument list at the front. */
  function Prepend(x: Value, s: Step<seq<Value>>): Step<seq<Value>>
  {
    match s.res
    case Ok(xs) => Step(Ok([x] + xs), s.state)
    case Err(_) => s
  }

  /**
    `bind($name, $arguments)`: a cached instance is returned as is; otherwise the name is
    resolved through the aliases, the class is chosen base table first, then user table,
    then the name itself, built, and cached under the canonical id. A construction needs
    one unit of `fuel` per level of nesting, which stands in for the missing cycle guard.
  */
  function Bind(c: Container, classes: ClassTable, name: string, args: seq<Value>, fuel: nat): (s: Step<Value>)
    decreases fuel, 0, 0
    ensures SameTables(c, s.state)
    ensures Cached(c) <= Cached(s.state)
    ensures ChangesOnlyByBuilds(c, s.state)
    ensures name in Cached(c) ==> s == Step(Ok(c.instances[name]), c)
    ensures name !in Cached(c) && s.res.Ok? ==>
      var k := Canonical(c.baseBind, c.bind, name);
      && k in Cached(s.state)
      && s.state.instances[k] == s.res.value
      && Builds(classes, Concrete(c.baseBind, c.bind, k), args, s.res.value)
    ensures name !in Cached(c) && fuel == 0 ==> s == Step(Err(OutOfFuel), c)
    ensures name !in Cached(c) && fuel > 0 ==>
      var target := Concrete(c.baseBind, c.bind, Canonical(c.baseBind, c.bind, name));
      && (target.Factory? ==> s == Step(Err(NotInstantiable("Closure")), c))
      && (target.ClassName? && target.name !in classes ==> s == Step(Err(ClassNotFound(target.name)), c))
      && ((&& target.ClassName? && target.name in classes && !classes[target.name].instantiable
           && SimpleCtor(classes[target.name].ctor, args)) ==> s == Step(Err(NotInstantiable(target.name)), c))
      && ((&& target.ClassName? && target.name in classes && classes[target.name].instantiable
           && SimpleCtor(classes[target.name].ctor, args) && !ArityMet(classes[target.name].ctor, args))
          ==> s == Step(Err(TooFewArguments(target.name)), c))
    ensures name !in Cached(c) && fuel > 0 ==>
      var k := Canonical(c.baseBind, c.bind, name);
      var target := Concrete(c.baseBind, c.bind, k);
      (&& target.ClassName? && target.name in classes && classes[target.name].instantiable
       && SimpleCtor(classes[target.name].ctor, args) && ArityMet(classes[target.name].ctor, args)) ==>
        var obj := Obj(target.name, CtorArgs(classes[target.name].ctor, args));
        s == Step(Ok(obj), c.(instances := c.instances[k := obj]))
    ensures name !in Cached(c) && fuel > 0 ==>
      var k := Canonical(c.baseBind, c.bind, name);
      var built := NewInstanceArgs(c, classes, Concrete(c.baseBind, c.bind, k), args, fuel - 1);
      && s.res == built.res
      && s.state == (if built.res.Ok? then built.state.(instances := built.state.instances[k := built.res.value])
                     else built.state)
  {
    if name in Cached(c) then Step(Ok(c.instances[name]), c)
    else if fuel == 0 then Step(Err(OutOfFuel), c)
    else
      var k := Canonical(c.baseBind, c.bind, name);
      var built := NewInstanceArgs(c, classes, Concrete(c.baseBind, c.bind, k), args, fuel - 1);
      match built.res
      case Ok(obj) => Step(Ok(obj), built.state.(instances := built.state.instances[k := obj]))
      case Err(e) => Step(Err(e), built.state)
  }

  /**
    `newInstanceArgs($name, $arguments)`: look the class up, assemble the constructor's
    arguments if it has a constructor, then build the object. Reflection refuses a class
    it cannot instantiate first; a constructor call with fewer arguments than required
    then throws `ArgumentCountError`.
  */
  function NewInstanceArgs(c: Container, classes: ClassTable, target: Binding, args: seq<Value>, fuel: nat): (s: Step<Value>)
    decreases fuel, 2, 0
    ensures SameTables(c, s.state)
    ensures Cached(c) <= Cached(s.state)
    ensures ChangesOnlyByBuilds(c, s.state)
    ensures s.res.Ok? ==> Builds(classes, target, args, s.res.value)
    ensures target.Factory? ==> s == Step(Err(NotInstantiable("Closure")), c)
    ensures target.ClassName? && target.name !in classes ==> s == Step(Err(ClassNotFound(target.name)), c)
    ensures target.ClassName? && target.name in classes && SimpleCtor(classes[target.name].ctor, args) ==>
      var obj := Obj(target.name, CtorArgs(classes[target.name].ctor, args));
      s == Step(if !classes[target.name].instantiable then Err(NotInstantiable(target.name))
                else if !ArityMet(classes[target.name].ctor, args) then Err(TooFewArguments(target.name))
                else Ok(obj), c)
    ensures target.ClassName? && target.name in classes && classes[target.name].ctor.Some? ==>
      var m := MethodParams(c, classes, classes[target.name].ctor.value, args, 0, fuel);
      && s.state == m.state
      && (m.res.Err? ==> s.res == Err(m.res.error))
      && (m.res.Ok? ==>
            var ps := classes[target.name].ctor.value;
            s.res == if !classes[target.name].instantiable then Err(NotInstantiable(target.name))
                     else if |Assembled(ps, args, 0)| < RequiredCount(ps) then Err(TooFewArguments(target.name))
                     else Ok(Obj(target.name, Assembled(ps, args, 0))))
  {
    match target
    case Factory(_) => Step(Err(NotInstantiable("Closure")), c)
    case ClassName(n) =>
      if n !in classes then Step(Err(ClassNotFound(n)), c)
      else
        var desc := classes[n];
        var assembled := match desc.ctor
          case None => Step(Ok([]), c)
          case Some(ps) => MethodParams(c, classes, ps, args, 0, fuel);
        match assembled.res
        case Err(e) => Step(Err(e), assembled.state)
        case Ok(xs) =>
          if !desc.instantiable then Step(Err(NotInstantiable(n)), assembled.state)
          else if desc.ctor.Some? && |xs| < RequiredCount(desc.ctor.value) then Step(Err(TooFewArguments(n)), assembled.state)
          else Step(Ok(Obj(n, xs)), assembled.state)
  }

  /**
    `getMethodParams($data, $arguments)` from parameter `i` on, threading the container
    through the `bind` calls it makes for class-typed parameters. The instance such a call
    returns is NOT added to the argument list: the code discards it.
  */
  function MethodParams(c: Container, classes: ClassTable, ps: seq<Param>, args: seq<Value>, i: nat, fuel: nat): (s: Step<seq<Value>>)
    requires i <= |ps|
    decreases fuel, 1, |ps| - i
    ensures SameTables(c, s.state)
    ensures Cached(c) <= Cached(s.state)
    ensures ChangesOnlyByBuilds(c, s.state)
    ensures s.res.Ok? ==> s.res.value == Assembled(ps, args, i)
    ensures s.res.Ok? ==> forall j :: i <= j < |ps| && NeedsBinding(ps, args, j) ==> Resolved(s.state, ps[j].ty.name)
    ensures NoDependencies(ps, args, i) ==> s == Step(Ok(Assembled(ps, args, i)), c)
  {
    if i == |ps| then Step(Ok([]), c)
    else if i < |args| then Prepend(args[i], MethodParams(c, classes, ps, args, i + 1, fuel))
    else if ps[i].hasDefault then Prepend(ps[i].default, MethodParams(c, classes, ps, args, i + 1, fuel))
    else match ps[i].ty
      case Named(t) =>
        assert NeedsBinding(ps, args, i);
        var dep := Bind(c, classes, t, [], fuel);
        if dep.res.Err? then Step(Err(dep.res.error), dep.state)
        else MethodParams(dep.state, classes, ps, args, i + 1, fuel)
      case _ => MethodParams(c, classes, ps, args, i + 1, fuel)
  }

  /** `__call($name, $arguments)`: an undeclared instance method resolves the service of that name. */
  function Call(c: Container, classes: ClassTable, member: string, arguments: seq<Value>, fuel: nat): (s: Step<Value>)
    ensures s == Bind(c, classes, member, arguments, fuel)
  {
    Bind(c, classes, member, arguments, fuel)
  }

  // ---------------------------------------------------------------- __construct

  /**
    `__construct($son)`: a fresh container of class `kind`; a non-empty `son` names a
    class whose constant `bind` is merged into the user table, existing entries winning.
  */
  function Construct(kind: ContainerClass, son: string, classes: ClassTable): (r: Result<Container, Error>)
    ensures son == "" ==> r == Ok(Container(kind.baseBind, kind.bind, map[]))
    ensures son != "" && (son !in classes || classes[son].bindConstant.None?) ==> r == Err(MissingBindConstant(son))
    ensures r.Ok? ==> r.value.baseBind == kind.baseBind && r.value.instances == map[]
    ensures r.Ok? && son != "" && son in classes && classes[son].bindConstant.Some? ==>
      forall k :: Lookup(r.value.bind, k) ==
        if Lookup(kind.bind, k).Some? then Lookup(kind.bind, k) else Lookup(classes[son].bindConstant.value, k)
    ensures son != "" && son in classes && classes[son].bindConstant.Some? ==>
      var sonBind := classes[son].bindConstant.value;
      r == Ok(Container(kind.baseBind, if sonBind != [] then Merge(sonBind, kind.bind) else kind.bind, map[]))
  {
    if son == "" then Ok(Container(kind.baseBind, kind.bind, map[]))
    else if son !in classes || classes[son].bindConstant.None? then Err(MissingBindConstant(son))
    else
      var sonBind := classes[son].bindConstant.value;
      var bind := if sonBind != [] then Merge(sonBind, kind.bind) else kind.bind;
      Ok(Container(kind.baseBind, bind, map[]))
  }
}

=== FILE: container_laws.dfy ===
/** Properties of one container that relate several calls, or a call to a reference definition. */
module ContainerLaws {
  import opened Results
  import opened Tables
  import opened Classes
  import opened ServiceContainer

  // ---------------------------------------------------------------- aliases and precedence

  /** The canonical id is the requested name itself or a key of one of the two tables. */
  lemma CanonicalIsBoundKey(baseBind: Table<string>, bind: Table<Binding>, name: string)
    ensures var k := Canonical(baseBind, bind, name);
      k == name || Lookup(baseBind, k) == Some(name) || Lookup(bind, k).Some?
  {
    if Search(baseBind, name).Some? {
      SearchThenLookup(baseBind, name);
    }
    var afterBase := match Search(baseBind, name) case Some(key) => key case None => name;
    if Search(bind, ClassName(afterBase)).Some? {
      SearchThenLookup(bind, ClassName(afterBase));
    }
  }

  /** A name that no table entry holds as its value is its own canonical id. */
  lemma UnaliasedNameIsCanonical(baseBind: Table<string>, bind: Table<Binding>, name: string)
    requires forall i :: 0 <= i < |baseBind| ==> baseBind[i].val != name
    requires forall i :: 0 <= i < |bind| ==> bind[i].val != ClassName(name)
    ensures Canonical(baseBind, bind, name) == name
  {
    SearchFindsFirst(baseBind, name);
    SearchFindsFirst(bind, ClassName(name));
  }

  /**
    The base table's alias is applied first: when the base table aliases `name` to `k`,
    the canonical id is `k` unless the user table aliases `k` itself, whatever the user
    table says about `name`.
  */
  lemma BaseAliasComesFirst(baseBind: Table<string>, bind: Table<Binding>, name: string, k: string)
    requires Lookup(baseBind, k) == Some(name)
    requires forall i :: 0 <= i < |baseBind| && baseBind[i].key != k ==> baseBind[i].val != name
    requires forall i :: 0 <= i < |bind| ==> bind[i].val != ClassName(k)
    ensures Canonical(baseBind, bind, name) == k
  {
    LookupHits(baseBind, k);
    SearchFindsFirst(baseBind, name);
    SearchThenLookup(baseBind, name);
    SearchFindsFirst(bind, ClassName(k));
  }

  /**
    The user table's alias is applied: when the base table aliases nothing to `name` and
    the user table binds `k` to the class `name`, the canonical id is `k`.
  */
  lemma UserAliasApplies(baseBind: Table<string>, bind: Table<Binding>, name: string, k: string)
    requires forall i :: 0 <= i < |baseBind| ==> baseBind[i].val != name
    requires UniqueValues(bind)
    requires Lookup(bind, k) == Some(ClassName(name))
    ensures Canonical(baseBind, bind, name) == k
  {
    SearchFindsFirst(baseBind, name);
    LookupThenSearch(bind, k, ClassName(name));
  }

  /**
    The two alias steps chain: the base table takes `name` to `m`, then the user table
    takes the class `m` to `k`.
  */
  lemma BaseThenUserAlias(baseBind: Table<string>, bind: Table<Binding>, name: string, m: string, k: string)
    requires UniqueValues(baseBind) && UniqueValues(bind)
    requires Lookup(baseBind, m) == Some(name)
    requires Lookup(bind, k) == Some(ClassName(m))
    ensures Canonical(baseBind, bind, name) == k
  {
    LookupThenSearch(baseBind, m, name);
    LookupThenSearch(bind, k, ClassName(m));
  }

  /**
    On a cache miss the object built is of the class the base table gives for the
    canonical id, else the class the user table gives, else of the canonical id itself.
  */
  lemma BindPrecedence(c: Container, classes: ClassTable, name: string, args: seq<Value>, fuel: nat)
    requires name !in Cached(c)
    requires Bind(c, classes, name, args, fuel).res.Ok?
    ensures var k := Canonical(c.baseBind, c.bind, name);
      var v := Bind(c, classes, name, args, fuel).res.value;
      && v.Obj?
      && (Lookup(c.baseBind, k).Some? ==> v.className == Lookup(c.baseBind, k).value)
      && (Lookup(c.baseBind, k).None? && Lookup(c.bind, k).Some? ==> Lookup(c.bind, k) == Some(ClassName(v.className)))
      && (Lookup(c.baseBind, k).None? && Lookup(c.bind, k).None? ==> v.className == k)
  {
  }

  /** No registration changes what is built for a key of the base table. */
  lemma BaseKeyNeverShadowed(c: Container, name: string, value: Value, force: bool, k: string)
    requires Lookup(c.baseBind, k).Some?
    ensures var r := Register(c, name, value, force);
      && (name == k ==> !r.accepted)
      && Concrete(r.state.baseBind, r.state.bind, k) == Concrete(c.baseBind, c.bind, k)
  {
  }

  // ---------------------------------------------------------------- memoisation

  /** A cache hit ignores the arguments and the fuel and changes nothing. */
  lemma BindHitIgnoresArguments(c: Container, classes: ClassTable, name: string, args: seq<Value>, args': seq<Value>, fuel: nat, fuel': nat)
    requires name in Cached(c)
    ensures Bind(c, classes, name, args, fuel) == Bind(c, classes, name, args', fuel')
    ensures Bind(c, classes, name, args, fuel) == Step(Get(c, name), c)
  {
  }

  /** After a successful build, `has` and `get` see the new object under the canonical id. */
  lemma BindThenGet(c: Container, classes: ClassTable, name: string, args: seq<Value>, fuel: nat)
    requires name !in Cached(c)
    requires Bind(c, classes, name, args, fuel).res.Ok?
    ensures var s := Bind(c, classes, name, args, fuel);
      var k := Canonical(c.baseBind, c.bind, name);
      Has(s.state, k) && Get(s.state, k) == s.res
  {
  }

  /** Binding a name that is its own canonical id a second time returns the same object and builds nothing. */
  lemma BindIsMemoised(c: Container, classes: ClassTable, name: string, args: seq<Value>, fuel: nat, args': seq<Value>, fuel': nat)
    requires Canonical(c.baseBind, c.bind, name) == name
    requires Bind(c, classes, name, args, fuel).res.Ok?
    ensures var s := Bind(c, classes, name, args, fuel);
      Bind(s.state, classes, name, args', fuel') == Step(s.res, s.state)
  {
  }

  /**
    A class that needs itself in its constructor is a dependency cycle: the code
    recurses forever, the model runs out of fuel whatever the fuel.
  */
  lemma {:induction false} SelfDependencyRunsOutOfFuel(c: Container, classes: ClassTable, a: string, fuel: nat)
    requires c.baseBind == [] && c.bind == []
    requires a !in Cached(c)
    requires a in classes && classes[a].ctor == Some([Param(false, Null, Named(a))])
    ensures Bind(c, classes, a, [], fuel) == Step(Err(OutOfFuel), c)
  {
    if fuel > 0 {
      SearchFindsFirst(c.baseBind, a);
      SearchFindsFirst(c.bind, ClassName(a));
      assert Canonical(c.baseBind, c.bind, a) == a;
      SelfDependencyRunsOutOfFuel(c, classes, a, fuel - 1);
      var ps := [Param(false, Null, Named(a))];
      assert MethodParams(c, classes, ps, [], 0, fuel - 1) == Step(Err(OutOfFuel), c);
      assert NewInstanceArgs(c, classes, ClassName(a), [], fuel - 1) == Step(Err(OutOfFuel), c);
    }
  }

  /**
    `name` can be built within `n` levels of nesting: the class chosen for it is known
    and instantiable, its constructor receives as many arguments as it requires, and
    every dependency its constructor has to resolve can be built within `n - 1` levels.
    It depends on the binding tables only, never on the cache.
  */
  ghost predicate Buildable(baseBind: Table<string>, bind: Table<Binding>, classes: ClassTable, name: string, args: seq<Value>, n: nat)
    decreases n
  {
    var target := Concrete(baseBind, bind, Canonical(baseBind, bind, name));
    && n > 0
    && target.ClassName?
    && target.name in classes
    && classes[target.name].instantiable
    && ArityMet(classes[target.name].ctor, args)
    && match classes[target.name].ctor
       case None => true
       case Some(ps) =>
         forall j :: 0 <= j < |ps| && NeedsBinding(ps, args, j) ==> Buildable(baseBind, bind, classes, ps[j].ty.name, [], n - 1)
  }

  /** With an acyclic dependency graph and fuel at least its depth, `bind` succeeds. */
  lemma {:induction false} BindSucceedsWhenBuildable(c: Container, classes: ClassTable, name: string, args: seq<Value>, fuel: nat, n: nat)
    requires Buildable(c.baseBind, c.bind, classes, name, args, n)
    requires n <= fuel
    ensures Bind(c, classes, name, args, fuel).res.Ok?
    decreases fuel, 0, 0
  {
    if name !in Cached(c) {
      var target := Concrete(c.baseBind, c.bind, Canonical(c.baseBind, c.bind, name));
      match classes[target.name].ctor
      case None =>
        assert NewInstanceArgs(c, classes, target, args, fuel - 1).res.Ok?;
      case Some(ps) =>
        MethodParamsSucceedWhenBuildable(c, classes, ps, args, 0, fuel - 1, n);
        assert NewInstanceArgs(c, classes, target, args, fuel - 1).res.Ok?;
    }
  }

  /** Every dependency left to resolve is buildable within `n - 1` levels, so the argument list is assembled. */
  lemma {:induction false} MethodParamsSucceedWhenBuildable(c: Container, classes: ClassTable, ps: seq<Param>, args: seq<Value>, i: nat, fuel: nat, n: nat)
    requires i <= |ps|
    requires 0 < n && n - 1 <= fuel
    requires forall j :: i <= j < |ps| && NeedsBinding(ps, args, j) ==> Buildable(c.baseBind, c.bind, classes, ps[j].ty.name, [], n - 1)
    ensures MethodParams(c, classes, ps, args, i, fuel).res.Ok?
    decreases fuel, 1, |ps| - i
  {
    DependenciesBuildable(c, classes, ps, args, i, fuel, n, c.baseBind, c.bind);
  }

  /** `MethodParamsSucceedWhenBuildable` with the binding tables fixed, which every resolved dependency keeps. */
  lemma {:induction false} DependenciesBuildable(c: Container, classes: ClassTable, ps: seq<Param>, args: seq<Value>, i: nat, fuel: nat, n: nat,
                                                 baseBind: Table<string>, bind: Table<Binding>)
    requires c.baseBind == baseBind && c.bind == bind
    requires i <= |ps|
    requires 0 < n && n - 1 <= fuel
    requires forall j :: i <= j < |ps| && NeedsBinding(ps, args, j) ==> Buildable(baseBind, bind, classes, ps[j].ty.name, [], n - 1)
    ensures MethodParams(c, classes, ps, args, i, fuel).res.Ok?
    decreases fuel, 1, |ps| - i, 1
  {
    if i < |ps| {
      if NeedsBinding(ps, args, i) {
        DependencyBuildable(c, classes, ps, args, i, fuel, n, baseBind, bind);
      } else {
        DependenciesBuildable(c, classes, ps, args, i + 1, fuel, n, baseBind, bind);
        assert MethodParams(c, classes, ps, args, i, fuel).res.Ok?;
      }
    }
  }

  /** The step of `DependenciesBuildable` at a parameter that needs its dependency resolved. */
  lemma {:induction false} DependencyBuildable(c: Container, classes: ClassTable, ps: seq<Param>, args: seq<Value>, i: nat, fuel: nat, n: nat,
                                               baseBind: Table<string>, bind: Table<Binding>)
    requires c.baseBind == baseBind && c.bind == bind
    requires i < |ps| && NeedsBinding(ps, args, i)
    requires 0 < n && n - 1 <= fuel
    requires forall j :: i <= j < |ps| && NeedsBinding(ps, args, j) ==> Buildable(baseBind, bind, classes, ps[j].ty.name, [], n - 1)
    ensures MethodParams(c, classes, ps, args, i, fuel).res.Ok?
    decreases fuel, 1, |ps| - i, 0
  {
    BindSucceedsWhenBuildable(c, classes, ps[i].ty.name, [], fuel, n - 1);
    var dep := Bind(c, classes, ps[i].ty.name, [], fuel);
    DependencyStep(c, classes, ps, args, i, fuel);
    DependenciesBuildable(dep.state, classes, ps, args, i + 1, fuel, n, baseBind, bind);
  }

  /** A resolved dependency at position `i` hands assembly on to position `i + 1` in the container it left. */
  lemma DependencyStep(c: Container, classes: ClassTable, ps: seq<Param>, args: seq<Value>, i: nat, fuel: nat)
    requires i < |ps| && NeedsBinding(ps, args, i)
    requires Bind(c, classes, ps[i].ty.name, [], fuel).res.Ok?
    ensures MethodParams(c, classes, ps, args, i, fuel)
         == MethodParams(Bind(c, classes, ps[i].ty.name, [], fuel).state, classes, ps, args, i + 1, fuel)
  {
  }

  /**
    A dependency that fails at position `i` stops the assembly: its error is reported as
    it is, and the container keeps whatever that failed resolution cached.
  */
  lemma DependencyFails(c: Container, classes: ClassTable, ps: seq<Param>, args: seq<Value>, i: nat, fuel: nat)
    requires i < |ps| && NeedsBinding(ps, args, i)
    requires Bind(c, classes, ps[i].ty.name, [], fuel).res.Err?
    ensures var dep := Bind(c, classes, ps[i].ty.name, [], fuel);
      MethodParams(c, classes, ps, args, i, fuel) == Step(Err(dep.res.error), dep.state)
  {
  }

  // ---------------------------------------------------------------- constructor arguments

  /** The assembled list is never longer than the parameter list. */
  lemma {:induction false} AssembledBounded(ps: seq<Param>, args: seq<Value>, i: nat)
    requires i <= |ps|
    ensures |Assembled(ps, args, i)| <= |ps| - i
    decreases |ps| - i
  {
    if i < |ps| {
      AssembledBounded(ps, args, i + 1);
    }
  }

  /** With an explicit argument for every parameter, they are passed verbatim and the surplus is dropped. */
  lemma {:induction false} ExplicitArgumentsVerbatim(ps: seq<Param>, args: seq<Value>, i: nat)
    requires i <= |ps| <= |args|
    ensures Assembled(ps, args, i) == args[i..|ps|]
    decreases |ps| - i
  {
    if i < |ps| {
      ExplicitArgumentsVerbatim(ps, args, i + 1);
      assert args[i..|ps|] == [args[i]] + args[i + 1..|ps|];
    }
  }

  /** Every parameter position gets an explicit argument or has a default. */
  predicate AllSupplied(ps: seq<Param>, args: seq<Value>, i: nat)
  {
    forall j :: i <= j < |ps| ==> j < |args| || ps[j].hasDefault
  }

  /**
    When every parameter is supplied, the list has one value per parameter, in order:
    the explicit argument where there is one, the default otherwise.
  */
  lemma {:induction false} SuppliedParametersInPlace(ps: seq<Param>, args: seq<Value>, i: nat)
    requires i <= |ps|
    requires AllSupplied(ps, args, i)
    ensures |Assembled(ps, args, i)| == |ps| - i
    ensures forall k :: 0 <= k < |ps| - i ==>
      Assembled(ps, args, i)[k] == if i + k < |args| then args[i + k] else ps[i + k].default
    decreases |ps| - i
  {
    if i < |ps| {
      SuppliedParametersInPlace(ps, args, i + 1);
      var x := if i < |args| then args[i] else ps[i].default;
      assert Assembled(ps, args, i) == [x] + Assembled(ps, args, i + 1);
    }
  }

  /**
    A required class-typed parameter is resolved but not passed: building `a` whose
    constructor takes one `b`, with `b` a class without constructor, caches `b` and then
    calls `a`'s constructor with no arguments, which throws `ArgumentCountError`.
  */
  lemma DependencyCachedNotInjected(a: string, b: string)
    requires a != b
    ensures var classes := map[a := ClassDesc(true, Some([Param(false, Null, Named(b))]), None),
                               b := ClassDesc(true, None, None)];
      var empty := Container([], [], map[]);
      Bind(empty, classes, a, [], 2)
        == Step(Err(TooFewArguments(a)), Container([], [], map[b := Obj(b, [])]))
  {
    var classes := map[a := ClassDesc(true, Some([Param(false, Null, Named(b))]), None),
                       b := ClassDesc(true, None, None)];
    var empty := Container([], [], map[]);
    assert Canonical([], [], b) == b;
    assert Canonical([], [], a) == a;
    var withB := Container([], [], map[b := Obj(b, [])]);
    assert Bind(empty, classes, b, [], 1) == Step(Ok(Obj(b, [])), withB);
    assert MethodParams(withB, classes, [Param(false, Null, Named(b))], [], 1, 1) == Step(Ok([]), withB);
    assert MethodParams(empty, classes, [Param(false, Null, Named(b))], [], 0, 1) == Step(Ok([]), withB);
    assert RequiredCount([Param(false, Null, Named(b))]) == 1;
  }

  /** Parameter `j` gets nothing, so the list assembled from any position up to `j` is shorter than the parameters left. */
  lemma {:induction false} AssembledSkips(ps: seq<Param>, args: seq<Value>, i: nat, j: nat)
    requires i <= j < |ps|
    requires j >= |args| && !ps[j].hasDefault
    ensures |Assembled(ps, args, i)| < |ps| - i
    decreases |ps| - i
  {
    if i == j {
      AssembledBounded(ps, args, i + 1);
    } else {
      AssembledSkips(ps, args, i + 1, j);
    }
  }

  /**
    Because a resolved dependency is not passed on, a constructor whose class-typed
    parameter `j` needs resolving, and whose later parameters have no defaults either,
    never receives enough arguments.
  */
  lemma UninjectedDependencyIsTooFew(ps: seq<Param>, args: seq<Value>, j: nat)
    requires j < |ps| && NeedsBinding(ps, args, j)
    requires forall m :: j < m < |ps| ==> !ps[m].hasDefault
    ensures !ArityMet(Some(ps), args)
  {
    AssembledSkips(ps, args, 0, j);
    assert RequiredCount(ps) == |ps|;
  }

  /**
    A failure inside a dependency's own resolution is reported unchanged at the top, and
    what that dependency resolved before it failed stays cached: for `a(d $x)` and
    `d(e $y, f $z)` with `f` no class, `bind(a)` fails with `f`'s error and keeps `e`.
  */
  lemma NestedFailureKeepsInnerDependencies(a: string, d: string, e: string, f: string)
    requires a != d && a != e && a != f && d != e && d != f && e != f
    ensures var classes := map[a := ClassDesc(true, Some([Param(false, Null, Named(d))]), None),
                               d := ClassDesc(true, Some([Param(false, Null, Named(e)), Param(false, Null, Named(f))]), None),
                               e := ClassDesc(true, None, None)];
      Bind(Container([], [], map[]), classes, a, [], 3)
        == Step(Err(ClassNotFound(f)), Container([], [], map[e := Obj(e, [])]))
  {
    var psA := [Param(false, Null, Named(d))];
    var psD := [Param(false, Null, Named(e)), Param(false, Null, Named(f))];
    var classes := map[a := ClassDesc(true, Some(psA), None), d := ClassDesc(true, Some(psD), None),
                       e := ClassDesc(true, None, None)];
    var empty := Container([], [], map[]);
    var withE := Container([], [], map[e := Obj(e, [])]);
    assert Canonical([], [], a) == a;
    assert Canonical([], [], d) == d;
    assert Canonical([], [], e) == e;
    assert Canonical([], [], f) == f;
    assert Bind(empty, classes, e, [], 1) == Step(Ok(Obj(e, [])), withE);
    assert Bind(withE, classes, f, [], 1) == Step(Err(ClassNotFound(f)), withE);
    assert MethodParams(withE, classes, psD, [], 1, 1) == Step(Err(ClassNotFound(f)), withE);
    assert MethodParams(empty, classes, psD, [], 0, 1) == Step(Err(ClassNotFound(f)), withE);
    assert Bind(empty, classes, d, [], 2) == Step(Err(ClassNotFound(f)), withE);
    assert MethodParams(empty, classes, psA, [], 0, 2) == Step(Err(ClassNotFound(f)), withE);
  }

  /**
    A throw from a later dependency does not undo an earlier one: for `a(b $x, d $y)` with
    `d` no class, `bind(a)` reports `d`'s error and leaves `b` cached.
  */
  lemma FailedDependencyKeepsEarlierOnes(a: string, b: string, d: string)
    requires a != b && a != d && b != d
    ensures var ps := [Param(false, Null, Named(b)), Param(false, Null, Named(d))];
      var classes := map[a := ClassDesc(true, Some(ps), None), b := ClassDesc(true, None, None)];
      Bind(Container([], [], map[]), classes, a, [], 2)
        == Step(Err(ClassNotFound(d)), Container([], [], map[b := Obj(b, [])]))
  {
    var ps := [Param(false, Null, Named(b)), Param(false, Null, Named(d))];
    var classes := map[a := ClassDesc(true, Some(ps), None), b := ClassDesc(true, None, None)];
    var empty := Container([], [], map[]);
    var withB := Container([], [], map[b := Obj(b, [])]);
    assert Canonical([], [], a) == a;
    assert Canonical([], [], b) == b;
    assert Canonical([], [], d) == d;
    assert Bind(empty, classes, b, [], 1) == Step(Ok(Obj(b, [])), withB);
    assert Bind(withB, classes, d, [], 1) == Step(Err(ClassNotFound(d)), withB);
    assert MethodParams(withB, classes, ps, [], 1, 1) == Step(Err(ClassNotFound(d)), withB);
    assert MethodParams(empty, classes, ps, [], 0, 1) == Step(Err(ClassNotFound(d)), withB);
  }

  /**
    The cache-hit test looks at the requested name, while the object is stored under the
    canonical id (src/Container.php:149, :160). A request for a class that the base table
    aliases as `svc` therefore never hits: it rebuilds and overwrites the object cached
    under `svc`, and with no fuel left it fails although `svc` is cached.
  */
  lemma AliasRequestRebuilds(svc: string, b: string)
    requires svc != b
    ensures var classes := map[b := ClassDesc(true, None, None)];
      var configured := Obj(b, [Scalar("configured")]);
      var c := Container([Entry(svc, b)], [], map[svc := configured]);
      && Has(c, svc)
      && Bind(c, classes, b, [], 1) == Step(Ok(Obj(b, [])), c.(instances := map[svc := Obj(b, [])]))
      && Bind(c, classes, b, [], 1).state.instances[svc] != configured
      && Bind(c, classes, b, [], 0) == Step(Err(OutOfFuel), c)
  {
    var c := Container([Entry(svc, b)], [], map[svc := Obj(b, [Scalar("configured")])]);
    assert Search(c.baseBind, b) == Some(svc);
    assert Canonical(c.baseBind, c.bind, b) == svc;
    assert Concrete(c.baseBind, c.bind, svc) == ClassName(b);
  }

  // ---------------------------------------------------------------- registration

  /** Registering the same name again without the flag is refused and the first value stays. */
  lemma RegisterTwiceRefused(c: Container, name: string, v1: Value, v2: Value)
    requires Register(c, name, v1, false).accepted
    requires v1 != Null
    requires v1.Closure? ==> v2.Closure?
    ensures var first := Register(c, name, v1, false).state;
      && Register(first, name, v2, false) == Registered(false, first)
      && (!v1.Closure? ==> Get(first, name) == Ok(v1))
  {
  }

  /** A forced registration of an instance replaces the entry, and `bind` then returns it. */
  lemma ForcedRegistrationWins(c: Container, classes: ClassTable, name: string, v: Value, args: seq<Value>, fuel: nat)
    requires Lookup(c.baseBind, name).None?
    requires !v.Closure? && v != Null
    ensures var r := Register(c, name, v, true);
      r.accepted && Bind(r.state, classes, name, args, fuel) == Step(Ok(v), r.state)
  {
  }

  /** `isset` ignores a stored `null`: registering `null` leaves the name free for the next registration. */
  lemma NullRegistrationLeavesNameFree(c: Container, name: string, v: Value)
    requires Register(c, name, Null, false).accepted
    ensures var first := Register(c, name, Null, false).state;
      && !Has(first, name)
      && (!v.Closure? || Lookup(c.bind, name).None? ==> Register(first, name, v, false).accepted)
  {
  }

  /**
    The instance branch checks only the cache: after a closure is registered under a
    name, an instance under the same name is still accepted without the flag.
  */
  lemma InstanceAfterClosureAccepted(c: Container, name: string, id: nat, v: Value)
    requires Register(c, name, Closure(id), false).accepted
    requires !v.Closure?
    ensures var first := Register(c, name, Closure(id), false).state;
      var second := Register(first, name, v, false);
      && second.accepted
      && Lookup(second.state.bind, name) == Some(Factory(id))
      && second.state.instances == c.instances[name := v]
  {
  }

  /** A forced closure only rewrites the user table: a name already cached keeps answering with its old object. */
  lemma ForcedClosureKeepsCachedObject(c: Container, classes: ClassTable, name: string, id: nat, args: seq<Value>, fuel: nat)
    requires Lookup(c.baseBind, name).None?
    requires name in Cached(c)
    ensures var r := Register(c, name, Closure(id), true);
      r.accepted && Bind(r.state, classes, name, args, fuel) == Step(Ok(c.instances[name]), r.state)
  {
  }

  /** A registered closure is never called: resolving its name fails as the `Closure` class cannot be built. */
  lemma RegisteredClosureIsNotBuilt(c: Container, classes: ClassTable, name: string, id: nat, fuel: nat)
    requires Register(c, name, Closure(id), false).accepted
    requires forall i :: 0 <= i < |c.baseBind| ==> c.baseBind[i].val != name
    requires forall i :: 0 <= i < |c.bind| ==> c.bind[i].val != ClassName(name)
    requires fuel > 0
    ensures var r := Register(c, name, Closure(id), false).state;
      Bind(r, classes, name, [], fuel) == Step(Err(NotInstantiable("Closure")), r)
  {
    var r := Register(c, name, Closure(id), false).state;
    assert forall i :: 0 <= i < |r.bind| ==> r.bind[i].val != ClassName(name) by {
      forall i | 0 <= i < |r.bind|
        ensures r.bind[i].val != ClassName(name)
      {
        LookupAt(r.bind, i);
        if r.bind[i].key != name {
          LookupHits(c.bind, r.bind[i].key);
        }
      }
    }
    UnaliasedNameIsCanonical(r.baseBind, r.bind, name);
  }
}

=== FILE: registry.dfy ===
/**
  The process-wide table of named containers, `Container::$containerInstance`: one
  live container per `CONTAINER_NAME`, shared by every container class, created
  lazily by `init` and by static calls.
*/
module Registry {
  import opened Results
  import opened Classes
  import opened ServiceContainer

  /** The live container of each container name. */
  type Registry = map<string, Container>

  /** The result of a registry operation, with the registry after it. */
  datatype Outcome<T> = Outcome(res: Result<T, Error>, registry: Registry)

  /** `new static($son)`: the constructor stores the new container under its class's name. */
  function New(reg: Registry, kind: ContainerClass, son: string, classes: ClassTable): (r: Outcome<Container>)
    ensures r.res == Construct(kind, son, classes)
    ensures r.res.Ok? ==>
      && r.registry == reg[kind.name := r.res.value]
      && r.res.value.instances == map[]
      && r.res.value.baseBind == kind.baseBind
    ensures r.res.Err? ==> r.registry == reg
  {
    match Construct(kind, son, classes)
    case Ok(c) => Outcome(Ok(c), reg[kind.name := c])
    case Err(e) => Outcome(Err(e), reg)
  }

  /**
    `init($new, $son)`: the live container of `kind`'s name, created (and stored) when
    there is none or when `forceNew` asks for a fresh one.
  */
  function Init(reg: Registry, kind: ContainerClass, forceNew: bool, son: string, classes: ClassTable): (r: Outcome<Container>)
    ensures kind.name in reg && !forceNew ==> r == Outcome(Ok(reg[kind.name]), reg)
    ensures kind.name !in reg || forceNew ==> r.res == Construct(kind, son, classes)
    ensures (kind.name !in reg || forceNew) && r.res.Ok? ==>
      r.res.value.instances == map[] && r.res.value.baseBind == kind.baseBind
    ensures r.res.Ok? ==> kind.name in r.registry && r.registry[kind.name] == r.res.value
    ensures r.res.Err? ==> r.registry == reg
    ensures r.registry - {kind.name} == reg - {kind.name}
  {
    if kind.name !in reg || forceNew then New(reg, kind, son, classes)
    else Outcome(Ok(reg[kind.name]), reg)
  }

  /** `new static(...$arguments)`: the first argument, if any, becomes the `string $son` parameter. */
  function SonArgument(args: seq<Value>): Result<string, Error>
  {
    if |args| == 0 then Ok("")
    else if args[0].Scalar? then Ok(args[0].text)
    else Err(SonNotString)
  }

  /**
    `__callStatic($name, $arguments)`: make sure the container of `kind`'s name exists,
    creating it from the same arguments if not, then resolve `name` in it.
  */
  function CallStatic(reg: Registry, kind: ContainerClass, name: string, args: seq<Value>, classes: ClassTable, fuel: nat): (r: Outcome<Value>)
    ensures r.registry - {kind.name} == reg - {kind.name}
    ensures kind.name in reg ==>
      var s := Bind(reg[kind.name], classes, name, args, fuel);
      r == Outcome(s.res, reg[kind.name := s.state])
    ensures kind.name !in reg && SonArgument(args).Err? ==> r == Outcome(Err(SonNotString), reg)
    ensures kind.name !in reg && SonArgument(args).Ok? && Construct(kind, SonArgument(args).value, classes).Err? ==>
      r == Outcome(Err(Construct(kind, SonArgument(args).value, classes).error), reg)
    ensures kind.name !in reg && SonArgument(args).Ok? && Construct(kind, SonArgument(args).value, classes).Ok? ==>
      var s := Bind(Construct(kind, SonArgument(args).value, classes).value, classes, name, args, fuel);
      r == Outcome(s.res, reg[kind.name := s.state])
    ensures r.res.Ok? ==> kind.name in r.registry
  {
    var ready :=
      if kind.name in reg then Outcome(Ok(reg[kind.name]), reg)
      else match SonArgument(args)
        case Err(e) => Outcome(Err(e), reg)
        case Ok(son) => New(reg, kind, son, classes);
    if ready.res.Err? then Outcome(Err(ready.res.error), reg)
    else
      var s := Bind(ready.res.value, classes, name, args, fuel);
      Outcome(s.res, ready.registry[kind.name := s.state])
  }

  /**
    `$container->member(...)` on the live container of `containerName`: PHP containers
    are objects, so what `__call` changes is what the registry holds afterwards.
  */
  function CallLive(reg: Registry, containerName: string, member: string, args: seq<Value>, classes: ClassTable, fuel: nat): (r: Outcome<Value>)
    requires containerName in reg
    ensures r.registry - {containerName} == reg - {containerName}
    ensures containerName in r.registry && SameTables(reg[containerName], r.registry[containerName])
    ensures r.res == Call(reg[containerName], classes, member, args, fuel).res
    ensures r.registry == reg[containerName := Call(reg[containerName], classes, member, args, fuel).state]
  {
    var s := Call(reg[containerName], classes, member, args, fuel);
    Outcome(s.res, reg[containerName := s.state])
  }
}

=== FILE: registry_laws.dfy ===
/** Properties of the named-container registry across calls. */
module RegistryLaws {
  import opened Results
  import opened Classes
  import opened ServiceContainer
  import opened Registry
  import opened ContainerLaws

  /** A static call on a name with no live container builds one from the call's arguments and resolves in it. */
  lemma CallStaticCreatesLazily(reg: Registry, kind: ContainerClass, name: string, args: seq<Value>, classes: ClassTable, fuel: nat, son: string, created: Container)
    requires kind.name !in reg
    requires SonArgument(args) == Ok(son)
    requires Construct(kind, son, classes) == Ok(created)
    ensures var s := Bind(created, classes, name, args, fuel);
      CallStatic(reg, kind, name, args, classes, fuel) == Outcome(s.res, reg[kind.name := s.state])
  {
  }

  /** Containers registered under other names are untouched by a static call, down to every `get`. */
  lemma OtherContainersUnaffected(reg: Registry, kind: ContainerClass, name: string, args: seq<Value>, classes: ClassTable, fuel: nat, other: string, id: string)
    requires other != kind.name
    requires other in reg
    ensures var r := CallStatic(reg, kind, name, args, classes, fuel).registry;
      other in r && r[other] == reg[other] && Get(r[other], id) == Get(reg[other], id)
  {
    var r := CallStatic(reg, kind, name, args, classes, fuel).registry;
    assert other in reg - {kind.name};
    assert (r - {kind.name})[other] == (reg - {kind.name})[other];
  }

  /** A second `init` without `forceNew` returns the container the first one left, whatever `son` it is given. */
  lemma InitReturnsLiveContainer(reg: Registry, kind: ContainerClass, forceNew: bool, son: string, son': string, classes: ClassTable)
    requires Init(reg, kind, forceNew, son, classes).res.Ok?
    ensures var first := Init(reg, kind, forceNew, son, classes);
      Init(first.registry, kind, false, son', classes) == first
  {
  }

  /**
    Two static calls for a name that is its own canonical id return the same object;
    the second builds nothing and changes nothing.
  */
  lemma StaticCallIsMemoised(reg: Registry, kind: ContainerClass, name: string, args: seq<Value>, args': seq<Value>, classes: ClassTable, fuel: nat, fuel': nat)
    requires CallStatic(reg, kind, name, args, classes, fuel).res.Ok?
    requires var live := CallStatic(reg, kind, name, args, classes, fuel).registry[kind.name];
      Canonical(live.baseBind, live.bind, name) == name
    ensures var first := CallStatic(reg, kind, name, args, classes, fuel);
      CallStatic(first.registry, kind, name, args', classes, fuel') == first
  {
    var first := CallStatic(reg, kind, name, args, classes, fuel);
    var c := if kind.name in reg then reg[kind.name] else Construct(kind, SonArgument(args).value, classes).value;
    var s := Bind(c, classes, name, args, fuel);
    assert first == Outcome(s.res, reg[kind.name := s.state]);
    BindIsMemoised(c, classes, name, args, fuel, args', fuel');
  }

  /**
    An object cached through a call on the live container is what a later static call
    for the same name returns: both reach the one container the registry holds.
  */
  lemma InstanceCallSeenByStaticCall(reg: Registry, kind: ContainerClass, name: string, args: seq<Value>, args': seq<Value>, classes: ClassTable, fuel: nat, fuel': nat)
    requires kind.name in reg
    requires Canonical(reg[kind.name].baseBind, reg[kind.name].bind, name) == name
    requires CallLive(reg, kind.name, name, args, classes, fuel).res.Ok?
    ensures var first := CallLive(reg, kind.name, name, args, classes, fuel);
      CallStatic(first.registry, kind, name, args', classes, fuel') == first
  {
    BindIsMemoised(reg[kind.name], classes, name, args, fuel, args', fuel');
  }
}

=== FILE: results.dfy ===
/** Failure-carrying wrappers shared by the whole model. */
module Results {

  /** A value that may be absent (PHP's `null` return, or a missing array key). */
  datatype Option<T> = None | Some(value: T)

  /** The outcome of an operation that either produces a value or throws. */
  datatype Result<T, E> = Ok(value: T) | Err(error: E)
}

=== FILE: tables.dfy ===
/**
  PHP arrays with string keys, as the container uses them for its binding tables.

  A PHP array remembers insertion order, and `array_search` returns the FIRST key
  whose value matches, so a table is a sequence of entries rather than a `map`.
  Assigning to an existing key keeps that key's position; assigning to a new key
  appends it.
*/
module Tables {
  import opened Results

  datatype Entry<V> = Entry(key: string, val: V)

  /** A PHP array never holds the same key twice. */
  predicate UniqueKeys<V>(t: seq<Entry<V>>)
  {
    forall i, j :: 0 <= i < j < |t| ==> t[i].key != t[j].key
  }

  type Table<V> = t: seq<Entry<V>> | UniqueKeys(t) witness []

  /** `$t[$k] ?? null`: the value stored under `k`. */
  function Lookup<V>(t: seq<Entry<V>>, k: string): Option<V>
  {
    if |t| == 0 then None
    else if t[0].key == k then Some(t[0].val)
    else Lookup(t[1..], k)
  }

  /** A lookup misses exactly when no entry carries the key. */
  lemma {:induction false} LookupMisses<V>(t: seq<Entry<V>>, k: string)
    ensures Lookup(t, k).None? <==> forall i :: 0 <= i < |t| ==> t[i].key != k
  {
    if |t| > 0 && t[0].key != k {
      LookupMisses(t[1..], k);
      assert forall i :: 1 <= i < |t| ==> t[i] == t[1..][i - 1];
    }
  }

  /** In a well-formed table every entry is what a lookup of its key finds. */
  lemma {:induction false} LookupAt<V>(t: seq<Entry<V>>, i: nat)
    requires UniqueKeys(t)
    requires i < |t|
    ensures Lookup(t, t[i].key) == Some(t[i].val)
  {
    if i > 0 {
      assert t[0].key != t[i].key;
      assert t[1..][i - 1] == t[i];
      LookupAt(t[1..], i - 1);
    }
  }

  /** A hit comes from an entry of the table. */
  lemma {:induction false} LookupHits<V>(t: seq<Entry<V>>, k: string)
    requires Lookup(t, k).Some?
    ensures exists i :: 0 <= i < |t| && t[i] == Entry(k, Lookup(t, k).value)
  {
    if t[0].key != k {
      LookupHits(t[1..], k);
      var i :| 0 <= i < |t[1..]| && t[1..][i] == Entry(k, Lookup(t, k).value);
      assert t[i + 1] == t[1..][i];
    }
  }

  /** `$t[$k] = $v`: overwrite in place, or append a new key. */
  function Put<V>(t: seq<Entry<V>>, k: string, v: V): (r: seq<Entry<V>>)
    ensures Lookup(r, k) == Some(v)
    ensures forall j :: j != k ==> Lookup(r, j) == Lookup(t, j)
    ensures UniqueKeys(t) ==> UniqueKeys(r)
  {
    if |t| == 0 then [Entry(k, v)]
    else if t[0].key == k then
      var r := [Entry(k, v)] + t[1..];
      assert UniqueKeys(t) ==> UniqueKeys(r) by {
        assert forall i :: 0 < i < |r| ==> r[i] == t[i];
      }
      r
    else
      var rest := Put(t[1..], k, v);
      var r := [t[0]] + rest;
      assert r[1..] == rest;
      assert UniqueKeys(t) ==> UniqueKeys(r) by {
        if UniqueKeys(t) {
          LookupMisses(t[1..], t[0].key);
          LookupMisses(rest, t[0].key);
          assert forall i :: 0 < i < |r| ==> r[i] == rest[i - 1];
        }
      }
      r
  }

  /** Overwriting keeps every other entry where it was; a new key goes last. */
  lemma {:induction false} PutKeepsOrder<V>(t: seq<Entry<V>>, k: string, v: V)
    ensures Lookup(t, k).None? ==> Put(t, k, v) == t + [Entry(k, v)]
    ensures Lookup(t, k).Some? ==> |Put(t, k, v)| == |t|
    ensures forall i :: 0 <= i < |t| && t[i].key != k ==> i < |Put(t, k, v)| && Put(t, k, v)[i] == t[i]
    ensures forall i :: 0 <= i < |t| ==> i < |Put(t, k, v)| && Put(t, k, v)[i].key == t[i].key
  {
    if |t| > 0 && t[0].key == k {
      assert forall i :: 0 < i < |t| ==> Put(t, k, v)[i] == t[i];
    }
    if |t| > 0 && t[0].key != k {
      PutKeepsOrder(t[1..], k, v);
      var r := Put(t, k, v);
      assert r == [t[0]] + Put(t[1..], k, v);
      assert forall i :: 0 < i < |t| ==> t[i] == t[1..][i - 1];
      if Lookup(t, k).None? {
        assert t == [t[0]] + t[1..];
      }
    }
  }

  /** `array_search($v, $t)`: the first key, in insertion order, whose value is `v`. */
  function Search<V(==)>(t: seq<Entry<V>>, v: V): Option<string>
  {
    if |t| == 0 then None
    else if t[0].val == v then Some(t[0].key)
    else Search(t[1..], v)
  }

  /** A search fails exactly when no entry holds the value, and otherwise names the first entry that does. */
  lemma {:induction false} SearchFindsFirst<V>(t: seq<Entry<V>>, v: V)
    ensures Search(t, v).None? <==> forall i :: 0 <= i < |t| ==> t[i].val != v
    ensures Search(t, v).Some? ==>
      exists i :: 0 <= i < |t| && t[i] == Entry(Search(t, v).value, v) && forall j :: 0 <= j < i ==> t[j].val != v
  {
    if |t| > 0 && t[0].val != v {
      SearchFindsFirst(t[1..], v);
      assert forall i :: 1 <= i < |t| ==> t[i] == t[1..][i - 1];
      if Search(t, v).Some? {
        var i :| 0 <= i < |t[1..]| && t[1..][i] == Entry(Search(t, v).value, v) && forall j :: 0 <= j < i ==> t[1..][j].val != v;
        assert t[i + 1] == t[1..][i];
      }
    }
  }

  /** A reverse lookup followed by a forward lookup gives the searched value back. */
  lemma SearchThenLookup<V>(t: seq<Entry<V>>, v: V)
    requires UniqueKeys(t)
    requires Search(t, v).Some?
    ensures Lookup(t, Search(t, v).value) == Some(v)
  {
    SearchFindsFirst(t, v);
    var i :| 0 <= i < |t| && t[i] == Entry(Search(t, v).value, v);
    LookupAt(t, i);
  }

  /** No two keys share a value. */
  predicate UniqueValues<V(==)>(t: seq<Entry<V>>)
  {
    forall i, j :: 0 <= i < j < |t| ==> t[i].val != t[j].val
  }

  /** When values are unique too, reverse and forward lookup are inverse to each other. */
  lemma LookupThenSearch<V>(t: seq<Entry<V>>, k: string, v: V)
    requires UniqueKeys(t) && UniqueValues(t)
    ensures Lookup(t, k) == Some(v) <==> Search(t, v) == Some(k)
  {
    if Lookup(t, k) == Some(v) {
      LookupHits(t, k);
      SearchFindsFirst(t, v);
      var i :| 0 <= i < |t| && t[i] == Entry(k, v);
      var j :| 0 <= j < |t| && t[j] == Entry(Search(t, v).value, v);
      assert i == j;
    }
    if Search(t, v) == Some(k) {
      SearchThenLookup(t, v);
    }
  }

  /** Assigns every entry of `u`, in order, into `t`. */
  function PutAll<V>(t: seq<Entry<V>>, u: seq<Entry<V>>): (r: seq<Entry<V>>)
    ensures UniqueKeys(u) ==> forall k :: Lookup(r, k) == (if Lookup(u, k).Some? then Lookup(u, k) else Lookup(t, k))
    ensures UniqueKeys(t) ==> UniqueKeys(r)
    decreases |u|
  {
    if |u| == 0 then t
    else
      var r := PutAll(Put(t, u[0].key, u[0].val), u[1..]);
      assert UniqueKeys(u) ==> Lookup(u[1..], u[0].key).None? by {
        LookupMisses(u[1..], u[0].key);
      }
      r
  }

  /** The entries of `u` whose key `t` does not hold, in `u`'s order. */
  function NewEntries<V>(u: seq<Entry<V>>, t: seq<Entry<V>>): seq<Entry<V>>
  {
    if |u| == 0 then []
    else (if Lookup(t, u[0].key).None? then [u[0]] else []) + NewEntries(u[1..], t)
  }

  /** Which entries are new depends only on which keys the target holds. */
  lemma {:induction false} NewEntriesSameKeys<V>(u: seq<Entry<V>>, t: seq<Entry<V>>, t': seq<Entry<V>>)
    requires forall i :: 0 <= i < |u| ==> (Lookup(t, u[i].key).None? <==> Lookup(t', u[i].key).None?)
    ensures NewEntries(u, t) == NewEntries(u, t')
  {
    if |u| > 0 {
      assert forall i :: 0 <= i < |u[1..]| ==> u[1..][i] == u[i + 1];
      NewEntriesSameKeys(u[1..], t, t');
    }
  }

  /** Nothing is held by the empty array, so every entry is new to it. */
  lemma {:induction false} NewEntriesOfEmpty<V>(u: seq<Entry<V>>)
    ensures NewEntries(u, []) == u
  {
    if |u| > 0 {
      NewEntriesOfEmpty(u[1..]);
      assert u == [u[0]] + u[1..];
    }
  }

  /**
    Assigning all of `u` keeps every key of `t` in its position and appends the keys
    that are new, in `u`'s order.
  */
  lemma {:induction false} PutAllOrder<V>(t: seq<Entry<V>>, u: seq<Entry<V>>)
    requires UniqueKeys(u)
    ensures |PutAll(t, u)| == |t| + |NewEntries(u, t)|
    ensures forall i :: 0 <= i < |t| ==> PutAll(t, u)[i].key == t[i].key
    ensures forall i :: 0 <= i < |t| && Lookup(u, t[i].key).None? ==> PutAll(t, u)[i] == t[i]
    ensures PutAll(t, u)[|t|..] == NewEntries(u, t)
    decreases |u|
  {
    if |u| > 0 {
      var k := u[0].key;
      var u' := u[1..];
      var t' := Put(t, k, u[0].val);
      PutKeepsOrder(t, k, u[0].val);
      assert UniqueKeys(u') by {
        assert forall i :: 0 <= i < |u'| ==> u'[i] == u[i + 1];
      }
      PutAllOrder(t', u');
      LookupMisses(u', k);
      NewEntriesSameKeys(u', t', t);
      var r := PutAll(t', u');
      assert PutAll(t, u) == r;
      assert forall x :: x != k ==> Lookup(u, x) == Lookup(u', x);
      if Lookup(t, k).None? {
        PutAllAppended(t, u, t', r);
      }
    }
  }

  /** The new-key case of `PutAllOrder`: the first entry of `u` lands right after `t`. */
  lemma PutAllAppended<V>(t: seq<Entry<V>>, u: seq<Entry<V>>, t': seq<Entry<V>>, r: seq<Entry<V>>)
    requires |u| > 0 && Lookup(t, u[0].key).None?
    requires t' == t + [u[0]]
    requires Lookup(u[1..], u[0].key).None?
    requires |r| == |t'| + |NewEntries(u[1..], t)|
    requires forall i :: 0 <= i < |t'| && Lookup(u[1..], t'[i].key).None? ==> r[i] == t'[i]
    requires r[|t'|..] == NewEntries(u[1..], t)
    ensures r[|t|..] == NewEntries(u, t)
  {
    assert r[|t|] == u[0];
    assert r[|t|..] == [r[|t|]] + r[|t'|..];
  }

  /**
    `array_merge($a, $b)` on string keys: every key of either array, `b` winning on a
    clash; `a`'s keys keep their positions and `b`'s new keys follow in `b`'s order.
  */
  function Merge<V>(a: Table<V>, b: Table<V>): (r: Table<V>)
    ensures forall k :: Lookup(r, k) == (if Lookup(b, k).Some? then Lookup(b, k) else Lookup(a, k))
    ensures |r| == |a| + |NewEntries(b, a)|
    ensures forall i :: 0 <= i < |a| ==> r[i].key == a[i].key
    ensures r[|a|..] == NewEntries(b, a)
  {
    PutAllOrder([], a);
    NewEntriesOfEmpty(a);
    assert PutAll([], a) == a;
    PutAllOrder(a, b);
    PutAll(PutAll([], a), b)
  }
}
